=== FILE: README.md ===
# Azure OpenAI Telegram relay: a Dafny model of its core

The bot relays a user's Telegram text messages to their own Azure OpenAI
deployment and posts the answer back. Under the Telegram and aiohttp plumbing,
`bot.py` holds a small sequential core, and this project models it as pure
functions:

- **the per-user configuration store** (`user_configs`). It is a
  `map<UserId, UserConfig>`, and each record has optional `api_key`,
  `endpoint`, `model` and `config_time` fields. Three handlers touch it:
  - `/config` validates its arguments and writes the record.
  - `/model` shows a menu.
  - The model-selection callback writes the model.
- **the completion adapter** (`call_azure_openai`). It has a completeness
  guard, the URL/header/payload construction with the per-model profile
  lookup, and the classification of the HTTP outcome into a reply string.
- **the chat handler** (`chat_handler`). It has its own completeness gate and
  builds the `[system, user]` conversation. A reply longer than 4000
  characters is split into fixed-width slices, and only the first slice
  carries the `💬 {model_display} 回复：` header, where
  `model_display` is the model's display label.

Modules:
- `Wrappers`: `Option`.
- `Text`: Python string semantics. This covers `startswith`, `rstrip`,
  clamped slicing, `str(int)` and fixed-width chunking.
- `Tables`: the static model tables.
- `Store`: the configuration store and its handlers.
- `Adapter`: `call_azure_openai`.
- `Chat`: `chat_handler`.

The HTTP exchange is an input value (`Adapter.HttpOutcome`). It is one of:
- a 200 response whose content is a string or JSON null;
- another status with its body;
- a timeout;
- any other exception with its text.

The timestamp is an opaque parameter.

What the code does, as the model has it:
- The model callback stores any action other than `cancel`, `compare` and
  `refresh` as the model, unchecked against the model table, so there is no
  unknown-model error (bot.py:316-321).
- The API version is an `if` on the model being `grok-3` (bot.py:51-55).
- Key, endpoint and timestamp are always present together. The code never
  checks this; `Store.StoreInvariant` states it, and the model proves that
  both store writers preserve it. Every stored record also always has a model.

## Model

| member | source | states |
|---|---|---|
| Text.RStrip | bot.py:162 | the result is a prefix of the argument, does not end in `/`, and only `/` characters were removed |
| Text.RStripUnique | bot.py:162 | those three properties determine the stripped endpoint uniquely |
| Text.Chunks | bot.py:448 | the list `[s[i:i+n] for i in range(0, len(s), n)]` as a recursive definition; its properties are stated by `Text.ChunksConcat`, `Text.ChunksSizes` and `Text.ChunkAt`, and `Text.SplitReply` proves the loop computes it |
| Text.ChunksConcat | bot.py:446-448 | joining the slices of a reply in order gives the reply back exactly |
| Text.ChunksSizes | bot.py:446-448 | each slice is non-empty and at most 4000 long, every slice but the last is exactly 4000, and the count is ceil(len / 4000) |
| Text.ChunkAt | bot.py:448 | the k-th slice is the Python slice `response[k*4000 : k*4000+4000]` |
| Text.ChunksStep | bot.py:448 | one step of the slicing loop: the slices from offset i are `s[i:i+4000]` followed by the slices from i+4000 |
| Text.SplitReply | bot.py:446-449 | the `range(0, len, 4000)` slicing loop yields exactly the chunk sequence; it rejoins to the reply, every slice is non-empty and at most 4000, and all but the last are exactly 4000 |
| Text.DecimalRoundTrip | bot.py:80 | the status code rendered in decimal reads back as the status code |
| Tables.ApiVersion | bot.py:51-55 | the api-version is `2024-08-01-preview` iff the model is `grok-3`, else `2024-02-15-preview` |
| Tables.DisplayName | bot.py:417 | `available_models.get(model, model)`: the table's label for a listed model and the id itself for any other |
| Tables.Profile | bot.py:48 | `model_configs.get(model, model_configs['gpt-4o'])`: the model's own profile when listed, else the `gpt-4o` profile; always one of the table's profiles |
| Tables.SystemPrompt | bot.py:423-431 | `system_prompts.get(model, default)`: the model's own prompt when listed, else the generic prompt |
| Tables.TablesAgree | bot.py:24-40 | the label and profile tables and the prompt table of bot.py:423-429 have the same five models, `ModelIds` (the order of bot.py:24-30) lists each of them once, and the default `gpt-4o` is among them |
| Tables.DisplayNameFallback | bot.py:417 | a model's label equals its id exactly when the id is not a supported model |
| Tables.ProfileFacts | bot.py:34-48 | max_tokens is 8000 exactly for gpt-4 and gpt-4.1, and 4000 otherwise (unknown ids use the gpt-4o profile); the temperature is 0.8 exactly for grok-3, else 0.7 |
| Tables.SystemPromptFallback | bot.py:423-431 | the generic system prompt is used exactly for models without their own prompt |
| Store.Get | bot.py:398 | `user_configs.get(user_id, {})`, which bot.py:208 and bot.py:343 repeat: the stored record, or an empty one for an unknown user |
| Store.ConfigCommand | bot.py:125-182 | fewer than 2 arguments, a bad endpoint (checked first), or a key under 20 characters each leave the store unchanged. Otherwise the record gets the key, the endpoint argument with trailing `/` stripped (which the reply also shows), the previous model or `gpt-4o`, and the timestamp. It is then complete, and no other user changes |
| Store.IsComplete | bot.py:400 | the three-key test `all(k in user_config for k in ['api_key', 'endpoint', 'model'])`, which bot.py:44 and bot.py:374 repeat; `Store.CompleteIffConfigured` shows it reduces to key presence under the store invariant |
| Store.ConfigEndpointShape | bot.py:162-167 | the stored endpoint starts with `https://`, does not end in `/`, and the argument is it followed only by slashes |
| Store.ModelMenu | bot.py:205-237 | a user without a non-empty key is told to configure first. Others get the current model's label (the stored model, else `gpt-4o`) and one button per model followed by the three control buttons |
| Store.ModelButtons | bot.py:221-223 | the i-th model button's callback data is `model:` followed by the i-th model id |
| Store.CallbackAction | bot.py:245 | the action is the second `:`-separated field: it follows `model:`, contains no `:`, and ends at a `:` or the end of the data |
| Store.CallbackActionRoundTrip | bot.py:245 | decoding the callback data built for a colon-free id gives back that id |
| Store.ModelCallback | bot.py:239-321 | `cancel`, `compare` and `refresh` are exactly the actions that both leave the store unchanged and give no switch reply; cancel and compare give their own replies, and refresh redraws the current label and the model keyboard. Any other action becomes the user's model, with the other fields kept (an empty record is created if needed) and no other user changed; the reply names the old model (or `none`) and the new one |
| Store.RefreshRedrawsMenu | bot.py:293-313 | the refresh button keeps the store and shows exactly the label and keyboard `/model` shows, but without `/model`'s key check (bot.py:210): a user with no key gets the keyboard too |
| Store.MenuSelectsModel | bot.py:221-321 | pressing the i-th model button of the menu makes the i-th model the user's model |
| Store.MenuControlsKeepStore | bot.py:226-314 | pressing the refresh, compare or cancel button of the menu leaves the store unchanged |
| Store.ConfigPreservesInvariant | bot.py:173-182 | `/config` keeps every record with a model and with key, endpoint and timestamp present together |
| Store.CallbackPreservesInvariant | bot.py:316-321 | the model callback keeps the same invariant |
| Store.CompleteIffConfigured | bot.py:400 | under the invariant, a user is complete exactly when a key is stored |
| Store.SwitchKeepsCompleteness | bot.py:316-321 | after a model switch, the record is complete exactly when key and endpoint were already present |
| Adapter.ApiUrl | bot.py:50-55 | the URL is the endpoint, `/openai/deployments/`, the model and `/chat/completions?api-version=`, followed by the version and nothing else (prefix, suffix and total length) |
| Adapter.UrlQueryVersion | bot.py:51-55 | the version is recoverable from the URL as the text after its last `=`; it is the Grok version iff the model is `grok-3` |
| Adapter.ApiFailureText | bot.py:80 | the non-200 reply is the API-failure prefix, the status and `)\n`, then min(300, len) characters of the body, then `...`; `Adapter.ApiFailureReadBack` reads the status and body back out of it |
| Adapter.BuildRequest | bot.py:47-72 | the request goes to the URL built from the user's endpoint and model, and carries the user's key, `application/json`, and the messages unchanged. max_tokens is 8000 iff the model is gpt-4 or gpt-4.1, and 4000 otherwise. It also carries the temperature, top_p 0.95, zero penalties and a 120 s timeout |
| Adapter.Classify | bot.py:71-86 | a 200 returns the content unchanged. A timeout returns the fixed timeout text, and another exception returns the request-error prefix and its text. A non-200 status returns the API-failure prefix and ends in `...` |
| Adapter.ApiFailureReadBack | bot.py:78-80 | the non-200 reply holds the status in decimal and the first min(300, len) characters of the body |
| Adapter.ClassifyKind | bot.py:74-86 | each failure outcome's reply reads back, by its prefix, as its own kind (API error, timeout, transport error) |
| Adapter.CallAzureOpenAI | bot.py:42-86 | an incomplete config gets the configure-first text and no request is issued; a complete one issues exactly the built request and returns the classified outcome |
| Chat.RepliesAreHeadedChunks | bot.py:444-455 | the short-reply branch equals the one-slice case of the long-reply branch |
| Chat.Truthy | bot.py:444 | Python truthiness of `response` at `if response:`: `None` and the empty string are falsy; `Chat.ReplyShape` gives the apology exactly for those |
| Chat.Header | bot.py:451 | the `f"💬 {model_display} 回复：\n\n"` prefix of the first reply message (also bot.py:455); `Chat.ReplyShape` shows only the first message carries it |
| Chat.Replies | bot.py:444-457 | the messages posted for a response; `Chat.ReplyShape` states their shape (apology when falsy, header on the first only, bare 4000-wide slices after, exact round-trip) |
| Chat.ReplyShape | bot.py:444-457 | a falsy reply gives exactly the apology alone. Otherwise only the first message carries the header. Later messages are the bare slices `text[i*4000:i*4000+4000]`, and stripping the header and joining gives the reply back. Slices are at most 4000, and the count is ceil(len/4000): one message iff len ≤ 4000 |
| Chat.ChatHandler | bot.py:395-457 | an incomplete user gets the help text and no request. A complete user's request carries exactly `[system(prompt for model), user(text)]`, and the replies are the classified outcome posted under the model's label |
| Chat.Conversation | bot.py:431-436 | the two messages sent: the system prompt for the model, then the user's text; `Chat.ChatHandler` states the request carries exactly these |
| Chat.ConfigThenChat | bot.py:177-182 | after a successful `/config`, the next message's request goes to the stripped endpoint, with the given key and the kept or default model. A non-empty completion is relayed whole |
| Chat.SwitchThenChat | bot.py:316-321 | after a model switch, a complete user's next request uses the same key and endpoint and the newly selected deployment |

## Left out

- Telegram transport: `Update`, `Application`, `reply_text`, `edit_message_text`, handler registration and `main()` with its `TELEGRAM_BOT_TOKEN` lookup (bot.py:505-536). This is library glue. The `^model:` callback pattern survives as `CallbackAction`'s requires.
- The "thinking" message (bot.py:420, bot.py:442). It is posted and then deleted around the call, so it is not among the final replies.
- The aiohttp session, the POST, JSON decoding and the timeout mechanics (bot.py:72-78). This is network I/O. The outcome is an input value, and the 120 s bound is only recorded in the request.
- Non-string JSON content on a 200 response. Only a string or null is modelled, and a missing field appears as the "other exception" outcome.
- Logging calls. They are side effects only.
- Interleaving of updates. Each handler is modelled as running to completion. `chat_handler` holds the live record across its awaits, and `call_azure_openai` reads `model` again (bot.py:47), so a callback processed in between could change the deployment under the old label and prompt. `main()` does not set `concurrent_updates` (bot.py:514), so updates are processed one at a time and this cannot happen.
- `datetime.now()` and the ISO/strftime formatting of `config_time` (bot.py:181, bot.py:194, bot.py:356-363). The timestamp is an opaque parameter.
- The float parameters `temperature` and `top_p`. They are scaled integers (tenths and hundredths), and no float arithmetic is involved.
- The static start, help, `/config` usage and model-comparison texts, the `/config` success and error lines, the `/model` configure-first line, the cancel line and the switch text. These are UI prose. Their replies are constructors (`ConfigUsage`, `BadEndpoint`, `BadApiKey`, `Saved`, `NeedConfig`, `Menu`, `Cancelled`, `Comparison`, `Refreshed`, `Switched`) carrying the values they display: `Menu` and `Refreshed` carry the current label and the whole keyboard, and `Saved` and `Switched` carry the labels and endpoint they show. The chat help text, the adapter's reply lines and the apology are modelled verbatim.
- `status_command` (bot.py:340-382). It only renders text; its completeness test is `Store.IsComplete`.
- `clear_command` (bot.py:384-393). It is a fixed reply with no state.

=== FILE: adapter.dfy ===
/**
 * `AzureOpenAIBot.call_azure_openai` (bot.py:42-86): the completeness guard,
 * the request it builds (URL, headers, payload), and the classification of the
 * HTTP outcome into the reply string. The HTTP exchange itself is an input: the
 * caller supplies the outcome the provider produced for the request.
 */
module Adapter {
  import opened Wrappers
  import opened Text
  import opened Tables
  import opened Store

  datatype Role = System | User

  /** One `{"role": ..., "content": ...}` entry of the payload's `messages`. */
  datatype ChatMessage = ChatMessage(role: Role, content: string)

  /**
   * The POST the adapter issues: URL, the two headers, the JSON payload, and the
   * client timeout. `top_p` is in hundredths and the temperature in tenths.
   */
  datatype Request = Request(
    url: string,
    contentType: string,
    apiKey: string,
    messages: seq<ChatMessage>,
    maxTokens: nat,
    temperatureTenths: nat,
    topPHundredths: nat,
    frequencyPenalty: int,
    presencePenalty: int,
    timeoutSeconds: nat)

  const DeploymentsPath: string := "/openai/deployments/"
  const CompletionsPath: string := "/chat/completions?api-version="
  const TopPHundredths: nat := 95
  const TimeoutSeconds: nat := 120

  /** `{endpoint}/openai/deployments/{model}/chat/completions?api-version={version}` */
  function ApiUrl(endpoint: string, model: string): (url: string)
    ensures StartsWith(url, endpoint + DeploymentsPath + model + CompletionsPath)
    ensures EndsWith(url, ApiVersion(model))
    ensures |url| == |endpoint| + |DeploymentsPath| + |model| + |CompletionsPath| + |ApiVersion(model)|
  {
    var front := endpoint + DeploymentsPath + model + CompletionsPath;
    var url := front + ApiVersion(model);
    assert url[..|front|] == front;
    assert url[|url| - |ApiVersion(model)|..] == ApiVersion(model);
    url
  }

  /**
   * The api-version is recoverable from any URL the adapter builds, as the text
   * after its last `=`, whatever the endpoint and model text contain; it is the
   * Grok-3 version exactly for the model `grok-3`.
   */
  lemma UrlQueryVersion(endpoint: string, model: string)
    ensures AfterLast(ApiUrl(endpoint, model), '=') == ApiVersion(model)
    ensures AfterLast(ApiUrl(endpoint, model), '=') == GrokApiVersion <==> model == "grok-3"
  {
    var front := endpoint + DeploymentsPath + model + "/chat/completions?api-version";
    var v := ApiVersion(model);
    assert CompletionsPath == "/chat/completions?api-version" + ['='];
    assert ApiUrl(endpoint, model) == front + ['='] + v;
    AfterLastSplit(front, '=', ApiVersion(model));
  }

  /** The request for a complete configuration and the given conversation. */
  function BuildRequest(cfg: UserConfig, messages: seq<ChatMessage>): (r: Request)
    requires IsComplete(cfg)
    ensures r.url == ApiUrl(cfg.endpoint.value, cfg.model.value)
    ensures StartsWith(r.url, cfg.endpoint.value + DeploymentsPath + cfg.model.value + CompletionsPath)
    ensures AfterLast(r.url, '=') == ApiVersion(cfg.model.value)
    ensures r.apiKey == cfg.apiKey.value && r.contentType == "application/json"
    ensures r.messages == messages
    ensures r.maxTokens == 8000 <==> cfg.model.value in {"gpt-4", "gpt-4.1"}
    ensures r.maxTokens == 4000 <==> cfg.model.value !in {"gpt-4", "gpt-4.1"}
    ensures r.temperatureTenths == (if cfg.model.value == "grok-3" then 8 else 7)
    ensures r.topPHundredths == 95 && r.frequencyPenalty == 0 && r.presencePenalty == 0
    ensures r.timeoutSeconds == 120
  {
    var model := cfg.model.value;
    var profile := Profile(model);
    ProfileFacts(model);
    UrlQueryVersion(cfg.endpoint.value, model);
    Request(ApiUrl(cfg.endpoint.value, model), "application/json", cfg.apiKey.value, messages,
            profile.maxTokens, profile.temperatureTenths, TopPHundredths, 0, 0, TimeoutSeconds)
  }

  // ---------------------------------------------------------------- outcomes

  /**
   * What the provider's HTTP exchange produced: a 200 response whose
   * `choices[0].message.content` is a string or JSON null, another status with
   * its body text, the 120-second timeout, or any other exception with its text
   * (a 200 body without the expected fields surfaces as such an exception).
   */
  datatype RawOutcome =
    | Completed(content: Option<string>)
    | Failed(status: nat, body: string)
    | TimedOut
    | Raised(message: string)

  /** A `Failed` outcome is only produced for a status other than 200. */
  type HttpOutcome = o: RawOutcome | !o.Failed? || o.status != 200 witness TimedOut

  const NotConfiguredText: string := "❌ 请先配置 API 信息，使用 /config 命令"
  const ApiFailurePrefix: string := "❌ API 调用失败 ("
  const TimeoutText: string := "❌ 请求超时，请稍后再试"
  const RequestErrorPrefix: string := "❌ 请求错误: "
  const BodyLimit: nat := 300

  /** `f"❌ API 调用失败 ({status})\n{error_text[:300]}..."` */
  function ApiFailureText(status: nat, body: string): (t: string)
    ensures StartsWith(t, ApiFailurePrefix + Decimal(status) + ")\n")
    ensures EndsWith(t, "...")
    ensures |t| == |ApiFailurePrefix| + |Decimal(status)| + 2 + Min(|body|, BodyLimit) + 3
  {
    ApiFailurePrefix + Decimal(status) + ")\n" + Take(body, BodyLimit) + "..."
  }

  /** The reply string for an outcome; `None` stands for a JSON-null content. */
  function Classify(o: HttpOutcome): (reply: Option<string>)
    ensures o.Completed? ==> reply == o.content
    ensures !o.Completed? ==> reply.Some?
    ensures o.TimedOut? ==> reply == Some(TimeoutText)
    ensures o.Raised? ==> reply == Some(RequestErrorPrefix + o.message)
    ensures o.Failed? ==> StartsWith(reply.value, ApiFailurePrefix) && EndsWith(reply.value, "...")
    ensures o.Failed? ==> reply == Some(ApiFailureText(o.status, o.body))
  {
    match o
    case Completed(content) => content
    case Failed(status, body) =>
      var t := ApiFailureText(status, body);
      assert t[..|ApiFailurePrefix|] == ApiFailurePrefix;
      assert t[|t| - 3..] == "...";
      Some(t)
    case TimedOut => Some(TimeoutText)
    case Raised(message) => Some(RequestErrorPrefix + message)
  }

  /**
   * The error reply of a non-200 response can be read back: the status digits
   * sit right after the prefix and denote the status, and what sits between
   * `")\n"` and the closing `"..."` is the first min(300, |body|) characters
   * of the body.
   */
  lemma ApiFailureReadBack(status: nat, body: string)
    ensures var t := ApiFailureText(status, body);
      var digits := t[|ApiFailurePrefix|..|ApiFailurePrefix| + |Decimal(status)|];
      var kept := t[|ApiFailurePrefix| + |Decimal(status)| + 2..|t| - 3];
      && (forall k :: 0 <= k < |digits| ==> '0' <= digits[k] <= '9')
      && DecimalValue(digits) == status
      && |kept| == Min(|body|, BodyLimit)
      && kept == body[..|kept|]
  {
    var t := ApiFailureText(status, body);
    var d := Decimal(status);
    var p := |ApiFailurePrefix|;
    assert t[p..p + |d|] == d;
    assert t[p + |d| + 2..|t| - 3] == Take(body, BodyLimit);
    DecimalRoundTrip(status);
  }

  /** The four failure kinds a caller can tell apart from the reply text alone. */
  datatype FailureKind = ApiError | Timeout | TransportError | NotAFailure

  /** Reads the failure kind off a reply by its fixed prefix. */
  function KindOf(reply: string): FailureKind {
    if StartsWith(reply, ApiFailurePrefix) then ApiError
    else if reply == TimeoutText then Timeout
    else if StartsWith(reply, RequestErrorPrefix) then TransportError
    else NotAFailure
  }

  /** Every failure outcome is classified into a reply that reads back as its own kind. */
  lemma ClassifyKind(o: HttpOutcome)
    requires !o.Completed?
    ensures KindOf(Classify(o).value) ==
      match o
      case Failed(_, _) => ApiError
      case TimedOut => Timeout
      case Raised(_) => TransportError
      case Completed(_) => NotAFailure
  {
    var r := Classify(o).value;
    match o
    case Failed(_, _) =>
    case TimedOut =>
      assert TimeoutText[2] != ApiFailurePrefix[2];
    case Raised(m) =>
      assert r[..|RequestErrorPrefix|] == RequestErrorPrefix;
      assert r[2] != ApiFailurePrefix[2];
      assert |r| > |TimeoutText| || r[4] != TimeoutText[4];
  }

  /** The result of one adapter call: the request it issued, if any, and its reply. */
  datatype Exchange = Exchange(sent: Option<Request>, reply: Option<string>)

  /**
   * `call_azure_openai`: an incomplete configuration gets the fixed
   * configure-first reply and no request is issued; otherwise exactly one
   * request is issued and the provider's outcome is classified.
   */
  function CallAzureOpenAI(cfg: UserConfig, messages: seq<ChatMessage>, outcome: HttpOutcome): (x: Exchange)
    ensures x.sent.None? <==> !IsComplete(cfg)
    ensures !IsComplete(cfg) ==> x.reply == Some(NotConfiguredText)
    ensures IsComplete(cfg) ==> x.sent == Some(BuildRequest(cfg, messages)) && x.reply == Classify(outcome)
  {
    if !IsComplete(cfg) then Exchange(None, Some(NotConfiguredText))
    else Exchange(Some(BuildRequest(cfg, messages)), Classify(outcome))
  }
}

=== FILE: chat.dfy ===
/**
 * `chat_handler` (bot.py:395-457): the completeness gate, the two-turn
 * conversation it sends, and the replies it posts, long replies being cut
 * into 4000-character slices of which only the first carries the header.
 */
module Chat {
  import opened Wrappers
  import opened Text
  import opened Tables
  import opened Store
  import opened Adapter

  const MaxReplyLength: nat := 4000

  const ChatHelpText: string :=
    "\n❌ 请先完成配置\n\n📝 配置步骤：\n1️⃣ /config <API_KEY> <ENDPOINT>\n2️⃣ /model (选择模型)\n3️⃣ 发送消息开始对话\n\n💡 示例：\n/config sk-abc123... https://your-resource.openai.azure.com\n        "

  const Apology: string := "❌ 抱歉，处理您的请求时出现了问题，请稍后再试。"

  /** `f"💬 {model_display} 回复：\n\n"` */
  function Header(display: string): string {
    "💬 " + display + " 回复：\n\n"
  }

  /** Python truthiness of the adapter's result: `None` and `""` are falsy. */
  predicate Truthy(response: Option<string>) {
    response.Some? && response.value != ""
  }

  /** The messages posted for a response shown under the label `display`. */
  function Replies(display: string, response: Option<string>): seq<string> {
    if !Truthy(response) then [Apology]
    else
      var text := response.value;
      if |text| > MaxReplyLength then
        var parts := Chunks(text, MaxReplyLength);
        [Header(display) + parts[0]] + parts[1..]
      else
        [Header(display) + text]
  }

  /**
   * Both branches of the reply logic are the same slicing: the short branch is
   * the one-slice case of the long one.
   */
  lemma RepliesAreHeadedChunks(display: string, text: string)
    requires text != ""
    ensures Replies(display, Some(text)) ==
      [Header(display) + Chunks(text, MaxReplyLength)[0]] + Chunks(text, MaxReplyLength)[1..]
  {
  }

  /**
   * The shape of what is posted. A falsy response gives the apology alone.
   * Otherwise the first message is the header followed by the first slice,
   * every later message is its bare slice `text[i*4000 : i*4000 + 4000]`, each
   * slice is non-empty and at most 4000 long, stripping the header and joining
   * gives the response back exactly, the count is ceil(|text| / 4000), and a
   * response of at most 4000 characters is one message.
   */
  lemma {:induction false} ReplyShape(display: string, response: Option<string>)
    ensures !Truthy(response) <==> Replies(display, response) == [Apology]
    ensures Truthy(response) ==>
      var msgs := Replies(display, response);
      var text := response.value;
      && |msgs| >= 1
      && StartsWith(msgs[0], Header(display))
      && msgs[0][|Header(display)|..] + Flatten(msgs[1..]) == text
      && 0 < |msgs[0]| - |Header(display)| <= MaxReplyLength
      && (forall i :: 1 <= i < |msgs| ==> 0 < |msgs[i]| <= MaxReplyLength)
      && (forall i :: 1 <= i < |msgs| ==> msgs[i] == Slice(text, i * MaxReplyLength, i * MaxReplyLength + MaxReplyLength))
      && |msgs| * MaxReplyLength >= |text|
      && (|msgs| - 1) * MaxReplyLength < |text|
      && (|msgs| == 1 <==> |text| <= MaxReplyLength)
  {
    var msgs := Replies(display, response);
    if Truthy(response) {
      var text := response.value;
      var h := Header(display);
      var parts := Chunks(text, MaxReplyLength);
      RepliesAreHeadedChunks(display, text);
      ChunksConcat(text, MaxReplyLength);
      ChunksSizes(text, MaxReplyLength);
      assert msgs[1..] == parts[1..];
      assert msgs[0][|h|..] == parts[0];
      assert Flatten(parts) == parts[0] + Flatten(parts[1..]);
      forall i | 1 <= i < |msgs|
        ensures msgs[i] == Slice(text, i * MaxReplyLength, i * MaxReplyLength + MaxReplyLength)
      {
        ChunkAt(text, MaxReplyLength, i);
      }
      if |msgs| == 1 {
        assert |text| <= MaxReplyLength;
      }
    } else {
      assert msgs == [Apology];
    }
    if Truthy(response) {
      var h := Header(display);
      assert StartsWith(msgs[0], h) && msgs[0] != Apology by {
        assert msgs[0][..|h|] == h;
        assert h[0] != Apology[0];
      }
    }
  }

  /** What one inbound text message produces: the request issued, if any, and the posted replies. */
  datatype ChatTurn = ChatTurn(request: Option<Request>, replies: seq<string>)

  /** The conversation sent for a model: its system prompt, then the user's text. */
  function Conversation(model: string, text: string): seq<ChatMessage> {
    [ChatMessage(System, SystemPrompt(model)), ChatMessage(User, text)]
  }

  /**
   * A text message from `user`. An incomplete record gets the help text and no
   * request. Otherwise one request carrying the two-turn conversation is issued
   * and the classified outcome is posted under the model's display label.
   */
  function ChatHandler(store: ConfigStore, user: UserId, text: string, outcome: HttpOutcome): (t: ChatTurn)
    ensures !IsComplete(Get(store, user)) <==> t.request.None?
    ensures !IsComplete(Get(store, user)) ==> t.replies == [ChatHelpText]
    ensures IsComplete(Get(store, user)) ==>
      var cfg := Get(store, user);
      && t.request == Some(BuildRequest(cfg, Conversation(cfg.model.value, text)))
      && t.request.value.messages == [ChatMessage(System, SystemPrompt(cfg.model.value)), ChatMessage(User, text)]
      && t.replies == Replies(DisplayName(cfg.model.value), Classify(outcome))
  {
    var cfg := Get(store, user);
    if !IsComplete(cfg) then ChatTurn(None, [ChatHelpText])
    else
      var model := cfg.model.value;
      var x := CallAzureOpenAI(cfg, Conversation(model, text), outcome);
      ChatTurn(x.sent, Replies(DisplayName(model), x.reply))
  }

  /**
   * `/config` followed by a message: the request goes to the endpoint given
   * (trailing slashes removed) with the key given, for the model kept or
   * defaulted by `/config`, and a successful completion's text is relayed whole.
   */
  lemma ConfigThenChat(store: ConfigStore, user: UserId, args: seq<string>, now: Timestamp,
                       text: string, answer: string)
    requires ConfigCommand(store, user, args, now).reply.Saved?
    requires answer != ""
    ensures var store' := ConfigCommand(store, user, args, now).store;
      var t := ChatHandler(store', user, text, Completed(Some(answer)));
      var model := Get(store, user).model.GetOr(DefaultModel);
      && t.request.Some?
      && t.request.value.apiKey == args[0]
      && StartsWith(t.request.value.url, RStrip(args[1], '/') + DeploymentsPath + model + CompletionsPath)
      && t.replies[0][|Header(DisplayName(model))|..] + Flatten(t.replies[1..]) == answer
  {
    var store' := ConfigCommand(store, user, args, now).store;
    assert Get(store', user) == store'[user];
    ReplyShape(DisplayName(Get(store, user).model.GetOr(DefaultModel)), Some(answer));
  }

  /** A model switch does not change where or with which key a complete user's next request goes. */
  lemma SwitchThenChat(store: ConfigStore, user: UserId, data: string, text: string, outcome: HttpOutcome)
    requires StartsWith(data, CallbackPrefix)
    requires !IsControlAction(CallbackAction(data))
    requires IsComplete(Get(store, user))
    ensures var t := ChatHandler(ModelCallback(store, user, data).store, user, text, outcome);
      && t.request.Some?
      && t.request.value.apiKey == Get(store, user).apiKey.value
      && StartsWith(t.request.value.url,
           Get(store, user).endpoint.value + DeploymentsPath + CallbackAction(data) + CompletionsPath)
  {
  }
}

=== FILE: store.dfy ===
/**
 * The per-user configuration store (`AzureOpenAIBot.user_configs`, bot.py:22)
 * and the three handlers that read or write it: `/config` (bot.py:125-203),
 * the `/model` menu (bot.py:205-237) and the model-selection callback
 * (bot.py:239-338). Each handler is a pure function from the store before the
 * event to the store after it plus the reply it sends.
 */
module Store {
  import opened Wrappers
  import opened Text
  import opened Tables

  /** Telegram's numeric user id. */
  type UserId = int

  /** The `config_time` value; its ISO formatting is not modelled. */
  type Timestamp = string

  /**
   * One user's record. Each field is a dict key that may be absent; the record
   * `{}` is `UserConfig(None, None, None, None)`.
   */
  datatype UserConfig = UserConfig(
    apiKey: Option<string>,
    endpoint: Option<string>,
    model: Option<string>,
    configTime: Option<Timestamp>)

  const EmptyConfig: UserConfig := UserConfig(None, None, None, None)

  type ConfigStore = map<UserId, UserConfig>

  /** `user_configs.get(user_id, {})` */
  function Get(store: ConfigStore, user: UserId): (c: UserConfig)
    ensures user in store ==> c == store[user]
    ensures user !in store ==> c == EmptyConfig
  {
    Lookup(store, user).GetOr(EmptyConfig)
  }

  /** The completeness test: the keys `api_key`, `endpoint` and `model` are all present. */
  predicate IsComplete(c: UserConfig) {
    c.apiKey.Some? && c.endpoint.Some? && c.model.Some?
  }

  /** Nothing in `store` changes for any user other than `user`. */
  ghost predicate OthersUnchanged(store: ConfigStore, store': ConfigStore, user: UserId) {
    forall u :: u != user ==> (u in store' <==> u in store) && (u in store ==> store'[u] == store[u])
  }

  // ---------------------------------------------------------------- /config

  const MinApiKeyLength: nat := 20
  const SecureScheme: string := "https://"

  /** What `/config` replies. `Saved` carries the endpoint and model label it shows. */
  datatype ConfigReply =
    | ConfigUsage
    | BadEndpoint
    | BadApiKey
    | Saved(endpoint: string, modelDisplay: string)

  datatype ConfigResult = ConfigResult(store: ConfigStore, reply: ConfigReply)

  /**
   * `/config <API_KEY> <ENDPOINT> ...`: at least two arguments, the endpoint with
   * its trailing slashes removed must start with `https://` (checked first), and
   * the key must be at least 20 characters. On success the record keeps any
   * previously chosen model (else the default) and is stamped with `now`.
   */
  function ConfigCommand(store: ConfigStore, user: UserId, args: seq<string>, now: Timestamp): (r: ConfigResult)
    ensures r.reply == ConfigUsage <==> |args| < 2
    ensures r.reply == BadEndpoint <==> |args| >= 2 && !StartsWith(RStrip(args[1], '/'), SecureScheme)
    ensures r.reply == BadApiKey <==>
      |args| >= 2 && StartsWith(RStrip(args[1], '/'), SecureScheme) && |args[0]| < MinApiKeyLength
    ensures !r.reply.Saved? ==> r.store == store
    ensures r.reply.Saved? ==>
      && user in r.store
      && r.store[user].apiKey == Some(args[0])
      && r.store[user].endpoint == Some(r.reply.endpoint)
      && r.reply.endpoint == RStrip(args[1], '/')
      && r.store[user].model == Some(Get(store, user).model.GetOr(DefaultModel))
      && r.store[user].configTime == Some(now)
      && r.reply.modelDisplay == DisplayName(r.store[user].model.value)
      && IsComplete(r.store[user])
      && r.store.Keys == store.Keys + {user}
      && OthersUnchanged(store, r.store, user)
  {
    if |args| < 2 then ConfigResult(store, ConfigUsage)
    else
      var apiKey := args[0];
      var endpoint := RStrip(args[1], '/');
      if !StartsWith(endpoint, SecureScheme) then ConfigResult(store, BadEndpoint)
      else if |apiKey| < MinApiKeyLength then ConfigResult(store, BadApiKey)
      else
        var prev := Get(store, user);
        var model := prev.model.GetOr(DefaultModel);
        var record := prev.(apiKey := Some(apiKey), endpoint := Some(endpoint),
                           model := Some(model), configTime := Some(now));
        ConfigResult(store[user := record], Saved(endpoint, DisplayName(model)))
  }

  /**
   * The stored endpoint is the argument with exactly its trailing slashes
   * removed: the argument is the stored endpoint followed only by `/`, and the
   * stored endpoint does not end in `/`.
   */
  lemma ConfigEndpointShape(store: ConfigStore, user: UserId, args: seq<string>, now: Timestamp)
    requires ConfigCommand(store, user, args, now).reply.Saved?
    ensures var e := ConfigCommand(store, user, args, now).store[user].endpoint.value;
      && StartsWith(e, SecureScheme)
      && StartsWith(args[1], e)
      && e[|e| - 1] != '/'
      && forall k :: |e| <= k < |args[1]| ==> args[1][k] == '/'
  {
  }

  // ---------------------------------------------------------------- /model menu

  /** One inline-keyboard button: its caption and its callback data. */
  datatype Button = Button(caption: string, data: string)

  datatype MenuReply =
    | NeedConfig
    | Menu(currentDisplay: string, buttons: seq<Button>)

  const CallbackPrefix: string := "model:"

  /** The model buttons, in table order, the current one ticked. */
  function ModelButtons(ids: seq<string>, current: string): (bs: seq<Button>)
    ensures |bs| == |ids|
    ensures forall i :: 0 <= i < |ids| ==> bs[i].data == CallbackPrefix + ids[i]
  {
    if |ids| == 0 then []
    else
      [Button((if ids[0] == current then "✅ " else "") + DisplayName(ids[0]), CallbackPrefix + ids[0])]
      + ModelButtons(ids[1..], current)
  }

  const ControlButtons: seq<Button> := [
    Button("🔄 刷新列表", "model:refresh"),
    Button("📊 模型对比", "model:compare"),
    Button("❌ 取消", "model:cancel")
  ]

  /** The model-selection keyboard for the current model: the model buttons, then the control buttons. */
  function ModelKeyboard(current: string): seq<Button> {
    ModelButtons(ModelIds, current) + ControlButtons
  }

  /** The model a user's menu shows as current: the stored one, else the default. */
  function CurrentModel(store: ConfigStore, user: UserId): string {
    Get(store, user).model.GetOr(DefaultModel)
  }

  /**
   * `/model`: a user whose record has no non-empty `api_key` is told to configure
   * first; everyone else gets one button per model and three control buttons.
   */
  function ModelMenu(store: ConfigStore, user: UserId): (r: MenuReply)
    ensures r.NeedConfig? <==> Get(store, user).apiKey.GetOr("") == ""
    ensures r.Menu? ==> |r.buttons| == |ModelIds| + 3
    ensures r.Menu? ==> r.currentDisplay == DisplayName(CurrentModel(store, user))
    ensures r.Menu? ==> r.buttons[|ModelIds|..] == ControlButtons
  {
    var c := Get(store, user);
    if c.apiKey.GetOr("") == "" then NeedConfig
    else
      var current := CurrentModel(store, user);
      Menu(DisplayName(current), ModelKeyboard(current))
  }

  // ---------------------------------------------------------------- model callback

  /** The characters of `s` before the first `c` (all of `s` if there is none). */
  function TakeUntil(s: string, c: char): (r: string)
    ensures StartsWith(s, r)
    ensures forall k :: 0 <= k < |r| ==> r[k] != c
    ensures |r| == |s| || s[|r|] == c
  {
    if |s| == 0 || s[0] == c then [] else [s[0]] + TakeUntil(s[1..], c)
  }

  /**
   * `query.data.split(':')[1]`. The handler is only registered for data matching
   * `^model:`, so the second field always exists.
   */
  function CallbackAction(data: string): (action: string)
    requires StartsWith(data, CallbackPrefix)
    ensures StartsWith(data, CallbackPrefix + action)
    ensures forall k :: 0 <= k < |action| ==> action[k] != ':'
    ensures |data| == |CallbackPrefix + action| || data[|CallbackPrefix + action|] == ':'
  {
    var rest := data[|CallbackPrefix|..];
    var action := TakeUntil(rest, ':');
    assert (CallbackPrefix + action) == data[..|CallbackPrefix| + |action|];
    action
  }

  /** Decoding the data a button was built with gives back the model id (ids contain no `:`). */
  lemma CallbackActionRoundTrip(id: string)
    requires forall k :: 0 <= k < |id| ==> id[k] != ':'
    ensures StartsWith(CallbackPrefix + id, CallbackPrefix)
    ensures CallbackAction(CallbackPrefix + id) == id
  {
  }

  datatype CallbackReply =
    | Cancelled
    | Comparison
    | Refreshed(currentDisplay: string, buttons: seq<Button>)
    | Switched(fromDisplay: string, toDisplay: string)

  datatype CallbackResult = CallbackResult(store: ConfigStore, reply: CallbackReply)

  /** The callback actions that only redraw or dismiss the menu. */
  predicate IsControlAction(action: string) {
    action == "cancel" || action == "compare" || action == "refresh"
  }

  /**
   * A button press. `cancel`, `compare` and `refresh` only redraw the message.
   * Any other action is stored as the user's model, unchecked against the model
   * table, creating an empty record first if the user has none.
   */
  function ModelCallback(store: ConfigStore, user: UserId, data: string): (r: CallbackResult)
    requires StartsWith(data, CallbackPrefix)
    ensures IsControlAction(CallbackAction(data)) <==> r.store == store && !r.reply.Switched?
    ensures !IsControlAction(CallbackAction(data)) ==>
      && r.store.Keys == store.Keys + {user}
      && r.store[user] == Get(store, user).(model := Some(CallbackAction(data)))
      && OthersUnchanged(store, r.store, user)
      && r.reply == Switched(DisplayName(Get(store, user).model.GetOr("none")), DisplayName(CallbackAction(data)))
    ensures CallbackAction(data) == "cancel" ==> r.reply == Cancelled
    ensures CallbackAction(data) == "compare" ==> r.reply == Comparison
    ensures CallbackAction(data) == "refresh" ==>
      r.reply == Refreshed(DisplayName(CurrentModel(store, user)), ModelKeyboard(CurrentModel(store, user)))
  {
    var action := CallbackAction(data);
    if action == "cancel" then CallbackResult(store, Cancelled)
    else if action == "compare" then CallbackResult(store, Comparison)
    else if action == "refresh" then
      var current := CurrentModel(store, user);
      CallbackResult(store, Refreshed(DisplayName(current), ModelKeyboard(current)))
    else
      var prev := Get(store, user);
      var record := prev.(model := Some(action));
      CallbackResult(store[user := record], Switched(DisplayName(prev.model.GetOr("none")), DisplayName(action)))
  }

  /**
   * The refresh button redraws exactly the menu `/model` shows, but without
   * `/model`'s key check: a user with no key gets the keyboard too.
   */
  lemma RefreshRedrawsMenu(store: ConfigStore, user: UserId)
    ensures StartsWith("model:refresh", CallbackPrefix)
    ensures var r := ModelCallback(store, user, "model:refresh");
      && r.store == store
      && r.reply.Refreshed?
      && |r.reply.buttons| == |ModelIds| + 3
      && (ModelMenu(store, user).Menu? ==>
            r.reply.currentDisplay == ModelMenu(store, user).currentDisplay
            && r.reply.buttons == ModelMenu(store, user).buttons)
      && (ModelMenu(store, user).NeedConfig? <==> Get(store, user).apiKey.GetOr("") == "")
  {
    CallbackActionRoundTrip("refresh");
    assert CallbackPrefix + "refresh" == "model:refresh";
  }

  /** No supported model id contains `:`, so each survives the round trip through callback data. */
  lemma ModelIdsColonFree(i: nat)
    requires i < |ModelIds|
    ensures forall k :: 0 <= k < |ModelIds[i]| ==> ModelIds[i][k] != ':'
  {
  }

  /** Pressing the i-th model button of the menu makes the i-th model the user's model. */
  lemma MenuSelectsModel(store: ConfigStore, user: UserId, i: nat)
    requires ModelMenu(store, user).Menu?
    requires i < |ModelIds|
    ensures StartsWith(ModelMenu(store, user).buttons[i].data, CallbackPrefix)
    ensures ModelCallback(store, user, ModelMenu(store, user).buttons[i].data).store[user].model == Some(ModelIds[i])
  {
    var bs := ModelMenu(store, user).buttons;
    var mb := ModelButtons(ModelIds, CurrentModel(store, user));
    assert bs[i] == mb[i];
    ModelIdsColonFree(i);
    CallbackActionRoundTrip(ModelIds[i]);
  }

  /** Pressing one of the menu's three control buttons leaves the store unchanged. */
  lemma MenuControlsKeepStore(store: ConfigStore, user: UserId, i: nat)
    requires ModelMenu(store, user).Menu?
    requires |ModelIds| <= i < |ModelMenu(store, user).buttons|
    ensures StartsWith(ModelMenu(store, user).buttons[i].data, CallbackPrefix)
    ensures ModelCallback(store, user, ModelMenu(store, user).buttons[i].data).store == store
  {
    var bs := ModelMenu(store, user).buttons;
    var mb := ModelButtons(ModelIds, CurrentModel(store, user));
    assert bs[i] == ControlButtons[i - |mb|];
    ControlButtonSelects(store, user, i - |ModelIds|);
  }

  lemma ControlButtonSelects(store: ConfigStore, user: UserId, j: nat)
    requires j < |ControlButtons|
    ensures StartsWith(ControlButtons[j].data, CallbackPrefix)
    ensures ModelCallback(store, user, ControlButtons[j].data).store == store
  {
    var id := if j == 0 then "refresh" else if j == 1 then "compare" else "cancel";
    assert ControlButtons[j].data == CallbackPrefix + id;
    CallbackActionRoundTrip(id);
  }

  // ---------------------------------------------------------------- store invariant

  /**
   * What every stored record satisfies: a model is always set, and the key, the
   * endpoint and the timestamp are present together (only `/config` sets them,
   * and it sets all three).
   */
  predicate RecordInvariant(c: UserConfig) {
    && c.model.Some?
    && (c.apiKey.Some? <==> c.endpoint.Some?)
    && (c.apiKey.Some? <==> c.configTime.Some?)
  }

  predicate StoreInvariant(store: ConfigStore) {
    forall u :: u in store ==> RecordInvariant(store[u])
  }

  lemma ConfigPreservesInvariant(store: ConfigStore, user: UserId, args: seq<string>, now: Timestamp)
    requires StoreInvariant(store)
    ensures StoreInvariant(ConfigCommand(store, user, args, now).store)
  {
  }

  lemma CallbackPreservesInvariant(store: ConfigStore, user: UserId, data: string)
    requires StartsWith(data, CallbackPrefix)
    requires StoreInvariant(store)
    ensures StoreInvariant(ModelCallback(store, user, data).store)
  {
  }

  /** Under the invariant a user is complete exactly when `/config` has succeeded for them. */
  lemma CompleteIffConfigured(store: ConfigStore, user: UserId)
    requires StoreInvariant(store)
    ensures IsComplete(Get(store, user)) <==> Get(store, user).apiKey.Some?
  {
  }

  /**
   * After a model switch the record is complete exactly when credentials were
   * already present; a switch never completes or breaks a configuration by itself.
   */
  lemma SwitchKeepsCompleteness(store: ConfigStore, user: UserId, data: string)
    requires StartsWith(data, CallbackPrefix)
    requires !IsControlAction(CallbackAction(data))
    ensures IsComplete(ModelCallback(store, user, data).store[user]) <==>
      Get(store, user).apiKey.Some? && Get(store, user).endpoint.Some?
  {
  }
}

=== FILE: tables.dfy ===
/**
 * The bot's static, read-only tables (bot.py:24-40 and bot.py:423-431): the
 * supported models with their display labels, the default model, the per-model
 * generation profile, the per-model system prompt, and the API-version choice.
 * Floating-point parameters are carried as scaled integers (0.7 is 7 tenths).
 */
module Tables {
  import opened Wrappers

  /** The model ids in the order the bot lists them (dict insertion order). */
  const ModelIds: seq<string> := ["gpt-4", "gpt-4.1", "gpt-4o", "gpt-3.5-turbo-0125", "grok-3"]

  /** `available_models`: model id to display label. */
  const AvailableModels: map<string, string> := map[
    "gpt-4" := "🧠 GPT-4",
    "gpt-4.1" := "🚀 GPT-4.1",
    "gpt-4o" := "✨ GPT-4o",
    "gpt-3.5-turbo-0125" := "⚡ GPT-3.5 Turbo 0125",
    "grok-3" := "🤖 Grok-3"
  ]

  /** `default_model` */
  const DefaultModel: string := "gpt-4o"

  /** One entry of `model_configs`; the temperature is in tenths. */
  datatype ModelProfile = ModelProfile(maxTokens: nat, temperatureTenths: nat)

  /** `model_configs` */
  const ModelConfigs: map<string, ModelProfile> := map[
    "gpt-4" := ModelProfile(8000, 7),
    "gpt-4.1" := ModelProfile(8000, 7),
    "gpt-4o" := ModelProfile(4000, 7),
    "gpt-3.5-turbo-0125" := ModelProfile(4000, 7),
    "grok-3" := ModelProfile(4000, 8)
  ]

  /** `system_prompts` in `chat_handler` */
  const SystemPrompts: map<string, string> := map[
    "gpt-4" := "你是一个专业的AI助手。请提供准确、详细和有帮助的回答。",
    "gpt-4.1" := "你是GPT-4.1，一个高级AI助手。请提供深入、准确的分析和回答。",
    "gpt-4o" := "你是GPT-4o，一个多模态优化的AI助手。请提供清晰、实用的回答。",
    "gpt-3.5-turbo-0125" := "你是GPT-3.5 Turbo 0125，一个快速响应的AI助手。请提供简洁、准确的回答。",
    "grok-3" := "你是Grok-3，一个具有独特视角的AI助手。请提供有趣、深刻的回答，可以适当幽默。"
  ]

  /** The system prompt used for a model the prompt table does not know. */
  const DefaultSystemPrompt: string := "你是一个有用的AI助手。"

  /** The two Azure OpenAI API versions the bot requests. */
  const GrokApiVersion: string := "2024-08-01-preview"
  const DefaultApiVersion: string := "2024-02-15-preview"

  function Lookup<K, V>(m: map<K, V>, k: K): Option<V> {
    if k in m then Some(m[k]) else None
  }

  /** `available_models.get(model, model)`: the label, or the id itself when unknown. */
  function DisplayName(model: string): (shown: string)
    ensures model in AvailableModels ==> shown == AvailableModels[model]
    ensures model !in AvailableModels ==> shown == model
  {
    Lookup(AvailableModels, model).GetOr(model)
  }

  /** `model_configs.get(model, model_configs['gpt-4o'])` */
  function Profile(model: string): (p: ModelProfile)
    ensures model in ModelConfigs ==> p == ModelConfigs[model]
    ensures model !in ModelConfigs ==> p == ModelConfigs[DefaultModel]
    ensures p in ModelConfigs.Values
  {
    Lookup(ModelConfigs, model).GetOr(ModelConfigs["gpt-4o"])
  }

  /** `system_prompts.get(model, default)` */
  function SystemPrompt(model: string): (prompt: string)
    ensures model in SystemPrompts ==> prompt == SystemPrompts[model]
    ensures model !in SystemPrompts ==> prompt == DefaultSystemPrompt
  {
    Lookup(SystemPrompts, model).GetOr(DefaultSystemPrompt)
  }

  /** The `api-version` query value: Grok-3 has its own, every other model shares one. */
  function ApiVersion(model: string): (v: string)
    ensures v == GrokApiVersion <==> model == "grok-3"
    ensures v == DefaultApiVersion <==> model != "grok-3"
  {
    if model == "grok-3" then GrokApiVersion else DefaultApiVersion
  }

  /** The three per-model tables and the ordered id list describe the same models. */
  lemma TablesAgree()
    ensures AvailableModels.Keys == ModelConfigs.Keys == SystemPrompts.Keys
    ensures forall i :: 0 <= i < |ModelIds| ==> ModelIds[i] in AvailableModels
    ensures forall m :: m in AvailableModels ==> m in ModelIds
    ensures |ModelIds| == |AvailableModels|
    ensures DefaultModel in AvailableModels
  {
    assert AvailableModels.Keys == {"gpt-4", "gpt-4.1", "gpt-4o", "gpt-3.5-turbo-0125", "grok-3"};
  }

  /** A display label never equals its id, so the label falls back to the id exactly for unknown ids. */
  lemma DisplayNameFallback(model: string)
    ensures DisplayName(model) == model <==> model !in AvailableModels
    ensures model in AvailableModels ==> DisplayName(model) == AvailableModels[model]
  {
  }

  /**
   * Output budget: 8000 tokens for GPT-4 and GPT-4.1, 4000 for every other id,
   * including ids outside the table (the GPT-4o fallback). The temperature is
   * 0.8 for Grok-3 and 0.7 for everything else.
   */
  lemma ProfileFacts(model: string)
    ensures Profile(model).maxTokens == 8000 <==> model == "gpt-4" || model == "gpt-4.1"
    ensures Profile(model).maxTokens == 4000 <==> model != "gpt-4" && model != "gpt-4.1"
    ensures Profile(model).temperatureTenths == 8 <==> model == "grok-3"
    ensures Profile(model).temperatureTenths == 7 <==> model != "grok-3"
    ensures model !in ModelConfigs ==> Profile(model) == ModelConfigs[DefaultModel]
  {
  }

  /** The system prompt falls back to the generic one exactly for ids outside the table. */
  lemma SystemPromptFallback(model: string)
    ensures SystemPrompt(model) == DefaultSystemPrompt <==> model !in SystemPrompts
  {
  }
}

=== FILE: text.dfy ===
/**
 * String operations the relay relies on, written with Python's semantics:
 * `str.startswith`, `str.rstrip(ch)`, clamped slicing `s[i:j]`, `str(int)`,
 * and the fixed-width slicing `[s[i:i+n] for i in range(0, len(s), n)]`
 * that `chat_handler` uses to split a long reply (bot.py:446-448).
 * A Dafny `string` is a sequence of Unicode scalar values. A Python `str` is a
 * sequence of code points, which may also hold lone surrogates; the model does
 * not represent those.
 */
module Text {

  function Min(a: int, b: int): int {
    if a <= b then a else b
  }

  /** `s.startswith(p)` */
  predicate StartsWith(s: string, p: string) {
    |p| <= |s| && s[..|p|] == p
  }

  /** `s.endswith(p)` */
  predicate EndsWith(s: string, p: string) {
    |p| <= |s| && s[|s| - |p|..] == p
  }

  /** Python slicing `s[i:j]` for non-negative bounds: out-of-range bounds are clamped. */
  function Slice(s: string, i: nat, j: nat): (r: string)
    ensures |r| == if Min(i, |s|) <= Min(j, |s|) then Min(j, |s|) - Min(i, |s|) else 0
    ensures forall k :: 0 <= k < |r| ==> r[k] == s[i + k]
  {
    var lo := Min(i, |s|);
    var hi := Min(j, |s|);
    if lo <= hi then s[lo..hi] else []
  }

  /** Python `s[:n]`: the first `n` characters, or all of `s` when it is shorter. */
  function Take(s: string, n: nat): (r: string)
    ensures |r| <= n
    ensures |r| == n || r == s
    ensures StartsWith(s, r)
  {
    s[..Min(n, |s|)]
  }

  /** Python `s.rstrip(c)`: drop every trailing occurrence of `c`. */
  function RStrip(s: string, c: char): (r: string)
    ensures StartsWith(s, r)
    ensures |r| == 0 || r[|r| - 1] != c
    ensures forall k :: |r| <= k < |s| ==> s[k] == c
    decreases |s|
  {
    if |s| > 0 && s[|s| - 1] == c then RStrip(s[..|s| - 1], c) else s
  }

  /** The three properties of `RStrip` pin its result down: it is the only such prefix. */
  lemma RStripUnique(s: string, c: char, t: string)
    requires StartsWith(s, t)
    requires |t| == 0 || t[|t| - 1] != c
    requires forall k :: |t| <= k < |s| ==> s[k] == c
    ensures t == RStrip(s, c)
  {
  }

  /** The characters after the last `c` in `s` (all of `s` when `c` does not occur). */
  function AfterLast(s: string, c: char): string {
    if |s| == 0 || s[|s| - 1] == c then []
    else AfterLast(s[..|s| - 1], c) + [s[|s| - 1]]
  }

  /** Whatever precedes the last separator, the text after it is recovered exactly. */
  lemma {:induction false} AfterLastSplit(front: string, c: char, back: string)
    requires forall k :: 0 <= k < |back| ==> back[k] != c
    ensures AfterLast(front + [c] + back, c) == back
    decreases |back|
  {
    var s := front + [c] + back;
    if |back| == 0 {
      assert s[|s| - 1] == c;
    } else {
      var shorter := back[..|back| - 1];
      assert s[..|s| - 1] == front + [c] + shorter;
      AfterLastSplit(front, c, shorter);
      assert shorter + [back[|back| - 1]] == back;
    }
  }

  /** Concatenation of a sequence of strings in order (`''.join(parts)`). */
  function Flatten(parts: seq<string>): string {
    if |parts| == 0 then [] else parts[0] + Flatten(parts[1..])
  }

  lemma {:induction false} FlattenAppend(parts: seq<string>, last: string)
    ensures Flatten(parts + [last]) == Flatten(parts) + last
    decreases |parts|
  {
    if |parts| == 0 {
      assert parts + [last] == [last];
    } else {
      assert (parts + [last])[1..] == parts[1..] + [last];
      FlattenAppend(parts[1..], last);
    }
  }

  /**
   * Fixed-width slicing: the first `n` characters, then the rest sliced the same way.
   * The empty string has no slices.
   */
  function Chunks(s: string, n: nat): seq<string>
    requires n > 0
    decreases |s|
  {
    if |s| == 0 then []
    else if |s| <= n then [s]
    else [s[..n]] + Chunks(s[n..], n)
  }

  /** Joining the slices gives back the string exactly. */
  lemma {:induction false} ChunksConcat(s: string, n: nat)
    requires n > 0
    ensures Flatten(Chunks(s, n)) == s
    decreases |s|
  {
    if |s| == 0 {
    } else if |s| <= n {
      assert Flatten([s]) == s + Flatten([]);
    } else {
      var c := Chunks(s, n);
      assert c[1..] == Chunks(s[n..], n);
      ChunksConcat(s[n..], n);
      assert s == s[..n] + s[n..];
    }
  }

  /**
   * Every slice is non-empty and at most `n` wide, every slice but the last is
   * exactly `n` wide, and there are ceil(|s| / n) of them: the count `m` is the
   * least one with `m * n >= |s|`.
   */
  lemma {:induction false} ChunksSizes(s: string, n: nat)
    requires n > 0
    ensures |Chunks(s, n)| * n >= |s|
    ensures |Chunks(s, n)| > 0 ==> (|Chunks(s, n)| - 1) * n < |s|
    ensures forall k :: 0 <= k < |Chunks(s, n)| ==> 0 < |Chunks(s, n)[k]| <= n
    ensures forall k :: 0 <= k < |Chunks(s, n)| - 1 ==> |Chunks(s, n)[k]| == n
    decreases |s|
  {
    var c := Chunks(s, n);
    if |s| == 0 {
    } else if |s| <= n {
    } else {
      ChunksSizes(s[n..], n);
      assert c[1..] == Chunks(s[n..], n);
      assert |c| * n == (|c| - 1) * n + n;
      forall k | 0 <= k < |c|
        ensures 0 < |c[k]| <= n
        ensures k < |c| - 1 ==> |c[k]| == n
      {
        if k > 0 {
          assert c[k] == Chunks(s[n..], n)[k - 1];
        }
      }
    }
  }

  /**
   * The k-th slice is the Python slice `s[k*n : k*n + n]`, i.e. the element the
   * comprehension at bot.py:448 produces for `i = k * n`.
   */
  lemma {:induction false} ChunkAt(s: string, n: nat, k: nat)
    requires n > 0
    requires k < |Chunks(s, n)|
    ensures Chunks(s, n)[k] == Slice(s, k * n, k * n + n)
  {
    ChunkAtOffset(s, n, k, k * n);
  }

  /** `ChunkAt` with the offset `k * n` named, so that the induction only adds and subtracts `n`. */
  lemma {:induction false} ChunkAtOffset(s: string, n: nat, k: nat, start: nat)
    requires n > 0
    requires k < |Chunks(s, n)|
    requires start == k * n
    ensures Chunks(s, n)[k] == Slice(s, start, start + n)
    decreases k
  {
    if k > 0 {
      MulStep(k, n);
      assert |s| > n;
      var rest := s[n..];
      var tail := Chunks(rest, n);
      assert Chunks(s, n) == [s[..n]] + tail;
      assert Chunks(s, n)[k] == tail[k - 1];
      ChunkAtOffset(rest, n, k - 1, start - n);
      SliceShift(s, n, start - n);
    }
  }

  lemma MulStep(k: nat, n: nat)
    requires k > 0
    ensures (k - 1) * n >= 0
    ensures (k - 1) * n == k * n - n
  {
  }

  /** Slicing after dropping `n` characters is slicing `n` further along. */
  lemma SliceShift(s: string, n: nat, a: nat)
    requires n <= |s|
    ensures Slice(s[n..], a, a + n) == Slice(s, a + n, a + n + n)
  {
    var rest := s[n..];
    var lo := Min(a, |rest|);
    var hi := Min(a + n, |rest|);
    assert Slice(rest, a, a + n) == rest[lo..hi];
    assert Slice(s, a + n, a + n + n) == s[lo + n..hi + n];
    assert rest[lo..hi] == s[lo + n..hi + n];
  }

  /** One step of the slicing loop: the slices from `i` on are `s[i:i+n]`, then the slices from `i + n` on. */
  lemma ChunksStep(s: string, n: nat, i: nat)
    requires n > 0 && i < |s|
    ensures Chunks(s[i..], n) == [Slice(s, i, i + n)] + Chunks(s[Min(i + n, |s|)..], n)
    ensures s[..Min(i + n, |s|)] == s[..i] + Slice(s, i, i + n)
  {
    var piece := Slice(s, i, i + n);
    assert piece == s[i..Min(i + n, |s|)];
    var rest := s[i..];
    if |rest| <= n {
      assert piece == rest;
      assert s[Min(i + n, |s|)..] == [];
    } else {
      assert rest[..n] == piece;
      assert rest[n..] == s[i + n..];
    }
  }

  /**
   * The slicing loop as the relay runs it: `i` steps through 0, n, 2n, ... while
   * below `|s|`, and each step appends `s[i:i+n]`.
   */
  method SplitReply(s: string, n: nat) returns (parts: seq<string>)
    requires n > 0
    ensures parts == Chunks(s, n)
    ensures Flatten(parts) == s
    ensures forall k :: 0 <= k < |parts| ==> 0 < |parts[k]| <= n
    ensures forall k :: 0 <= k < |parts| - 1 ==> |parts[k]| == n
  {
    parts := [];
    var i: nat := 0;
    while i < |s|
      invariant Flatten(parts) == s[..Min(i, |s|)]
      invariant Chunks(s, n) == parts + Chunks(s[Min(i, |s|)..], n)
    {
      var piece := Slice(s, i, i + n);
      ChunksStep(s, n, i);
      FlattenAppend(parts, piece);
      parts := parts + [piece];
      i := i + n;
    }
    ChunksConcat(s, n);
    ChunksSizes(s, n);
  }

  /** The decimal digit character for `d`. */
  function DigitChar(d: nat): char
    requires d < 10
  {
    "0123456789"[d]
  }

  /** Python `str(n)` for a non-negative integer: decimal digits, no leading zero. */
  function Decimal(n: nat): (r: string)
    ensures |r| > 0
    ensures forall k :: 0 <= k < |r| ==> '0' <= r[k] <= '9'
    ensures r[0] == '0' ==> n == 0
    decreases n
  {
    if n < 10 then [DigitChar(n)] else Decimal(n / 10) + [DigitChar(n % 10)]
  }

  /** The value of a string of decimal digits (Python `int(s)` on such a string). */
  function DecimalValue(s: string): nat
    requires forall k :: 0 <= k < |s| ==> '0' <= s[k] <= '9'
  {
    if |s| == 0 then 0
    else 10 * DecimalValue(s[..|s| - 1]) + (s[|s| - 1] as int - '0' as int)
  }

  /** Reading the rendered status code back gives the status code. */
  lemma {:induction false} DecimalRoundTrip(n: nat)
    ensures DecimalValue(Decimal(n)) == n
    decreases n
  {
    var r := Decimal(n);
    if n < 10 {
      assert r[..0] == [];
    } else {
      DecimalRoundTrip(n / 10);
      assert r[..|r| - 1] == Decimal(n / 10);
    }
  }
}

=== FILE: wrappers.dfy ===
/** Optional values: a Python dict key that may be absent, or a JSON value that may be null. */
module Wrappers {

  datatype Option<+T> = None | Some(value: T) {

    /** The value if present, otherwise `default` (Python's `dict.get(k, default)`). */
    function GetOr(default: T): T {
      match this
      case Some(v) => v
      case None => default
    }
  }
}
